=== FILE: README.md ===
# Grid maze solver in Dafny

This project models the path-search core of a small maze solver (`Code.py`).
The solver offers three strategies on a static 2-D occupancy grid, where
`0` is an open cell and anything else is a wall:

- breadth-first search with a FIFO deque;
- uniform-cost (Dijkstra) search with a priority queue keyed on cost;
- A* search keyed on cost plus the Manhattan distance to the goal.

The source writes the same skeleton three times:

1. Pop a cell.
2. Stop if it is the goal.
3. Otherwise try the neighbours up, right, down and left, in that order. Each open neighbour that is not yet recorded gets its predecessor and cost recorded and is pushed.

After the loop, each copy rebuilds the route. It follows the predecessor links back from the goal and then reverses the list.

The model has eight modules, one per concern:

- `Grid` (`grid.dfy`): cells, the four moves, Manhattan distance, open cells, the walled border, and walks through open cells.
- `Options` and `Frontier` (`frontier.dfy`):
  - the `Option` type;
  - queue entries `(priority, x, y)` and the lexicographic order in which the priority queue hands them out;
  - the priority formula of each strategy;
  - the pop rule: the front for the deque, the least entry for the priority queue.
- `Reconstruction` (`reconstruction.dfy`): the predecessor walk with `dict.get`'s default of `None`, followed by the reversal.
- `Search` (`search.dfy`): the shared search loop with the strategy as a parameter.
  - `Search.Run` starts from the state `Search.Begin` sets up. `Search.RunFrom` repeats rounds until the goal is popped or the frontier runs empty. It calls itself once per round, in place of the source's `while` loop.
  - One round (`Search.Round`) pops an entry. It either stops at the goal or expands the popped cell (`Search.Expand`), which scans its four neighbours (`Search.TryNeighbours`, `Search.TryStep`). The scan is also written as a function, `Search.Scan`, and the methods are proved to compute it.
  - The state is the predecessor map, the cost map and the frontier.
  - It also keeps two logs that the source does not: every entry ever pushed, and every cell expanded. They are needed to state "pushed at most once" and "the goal is never expanded".
- `Solver` (`solver.dfy`): one solver per source function, the search followed by reconstruction, plus a comparison of the three.
- `Sample` (`sample.dfy`): the predefined 15 x 20 maze, with start `(1, 1)` and end point `(18, 13)`, and properties of what the driver's three calls return on it.
- `GapMaze` (`gap.dfy`): a 5 x 5 maze whose middle wall has one gap, on which all three solvers return the same route.

Unreachable goals follow the code literally: the route is `[goal]`. Each solver also returns a `found` flag, and it is proved that `found` holds exactly when the goal is reachable from start. So the one-cell route for an unreachable goal can always be told apart from the one-cell route for `start == goal`.

Two behaviours of the code are worth stating plainly:

- **Route lengths differ for A*.** The three strategies need not return routes of equal length, because the code does not ensure a shortest route for A*. A* closes a cell when it is first discovered and never relaxes its cost (`Code.py:113`), so the first predecessor recorded stays even when a shorter one turns up later.
  - The model proves shortest routes for breadth-first and uniform-cost search only.
  - For A* it proves only that the route is a walk that never repeats a cell, no shorter than the Manhattan distance.
- **Unreachable goals.** No explicit "unreachable" result exists: the code returns `[goal]`, and the model keeps that route. The `found` flag is added beside it; it does not replace it.

## Model

| member | source | states |
|---|---|---|
| Grid.ManhattanDistance | Code.py:36-37 | The distance is a natural number. It is zero exactly when the two points coincide, and it is at least the difference along each axis. |
| Grid.ManhattanIsMetric | Code.py:36-37 | Manhattan distance is symmetric, is zero exactly on equal cells, and satisfies the triangle inequality. |
| Grid.WalkNoShorterThanDistance | Code.py:114 | Along any walk through open cells, the number of steps is at least the Manhattan distance between its ends. So the A* heuristic never overestimates. |
| Grid.AdjacentIffStep | Code.py:42 | The four direction offsets are exactly the unit steps: two cells are one step apart if and only if one of the four moves leads from the first to the second. |
| Grid.StepInBounds | Code.py:52 | On a grid with an all-wall border, every neighbour of an open cell is in range, so `maze[ny][nx]` never indexes outside the grid. |
| Grid.ClosedSetTrapsWalk | Code.py:50-54 | A walk that starts in a set containing every open neighbour of each of its cells stays inside that set. |
| Grid.Unreachable | Code.py:44-54 | If such a closed set contains start but not the goal, no walk leads from start to the goal. |
| Frontier.EntryLeqIsTotalOrder | Code.py:73 | Tuples `(priority, x, y)` are totally ordered: the order is reflexive, antisymmetric, transitive and total. |
| Frontier.LeastEntryUnique | Code.py:73 | Two entries that are each no greater than every entry of a queue are equal, so the priority queue's next entry is determined. |
| Frontier.PriorityAdmissible | Code.py:114-115 | A cell discovered at some cost is pushed with a priority no greater than that cost plus the steps of any walk from it to the goal, so no priority overestimates. |
| Frontier.PriorityConsistent | Code.py:114-115 | A priority never falls along a step: a neighbour discovered at one more than a cell's cost gets a priority at least that cell's. |
| Frontier.RemoveAt | Code.py:73 | Taking out entry `k` keeps every other entry, in order, and adds nothing. |
| Frontier.PopIndex | Code.py:45 | The deque pops its front. The priority queue pops an entry no greater than any other in the `(priority, x, y)` order. |
| Reconstruction.GetStepsDown | Code.py:58-60 | Looking up the predecessor of a recorded cell with `dict.get` either yields none, and then the cell costs 0, or yields a recorded cell that costs one less. So the number of links still to follow drops with every pass of the loop. |
| Reconstruction.Reverse | Code.py:62 | The reversed list has the same length, and its `i`-th element is the `i`-th from the end of the original. |
| Reconstruction.Reconstruct | Code.py:56-63 | For an unrecorded goal the route is `[goal]`. For a recorded goal the walk stops, and the route has `cost[goal] + 1` cells. It ends at the goal and starts at a cell without predecessor, and each cell's recorded predecessor is the cell before it. |
| Grid.Step | Code.py:50-51 | Each of the four moves leads to a cell exactly one unit step away. |
| Search.DiscoverKeepsTree | Code.py:83-85 | Recording an open, unrecorded neighbour of a recorded cell keeps the predecessor links a tree rooted at start, with each link a unit step and cost rising by one along it. |
| Search.DiscoverKeepsLog | Code.py:83-85 | Recording and pushing an unrecorded cell keeps every recorded cell pushed exactly once, start first, each with its strategy's priority. |
| Search.NewEntriesAfterDiscover | Code.py:50-54 | Recording the neighbour in one direction does not change what the later directions push, because the four moves lead to four different cells. |
| Search.ScanAppends | Code.py:78-85 | The neighbour scan appends to the frontier and to the push log exactly one entry per open, unrecorded neighbour, in the order up, right, down, left, and expands nothing. |
| Search.Expand | Code.py:78-85 | Expanding a popped cell records only open neighbours of it that were not recorded before. Each gets the cell as predecessor and the cell's cost plus one. Each is pushed once with its strategy's priority, behind the remaining frontier, in the order up, right, down, left, and nothing else changes. The predecessor tree, the push log and the cost layering are kept. |
| Search.LayeredCostBound | Code.py:44-54 | When cells are expanded in cost order, the `j`-th cell of any walk from start is recorded at cost at most `j`. |
| Search.GoalCostIsShortest | Code.py:80-84 | If every cell cheaper than the goal has been expanded, the goal's cost is at most the number of steps of any walk from start to it. |
| Search.GoalPopped | Code.py:75-76 | When breadth-first or uniform-cost search pops the goal, the goal is recorded and its cost is that of a shortest walk. |
| Search.Exhausted | Code.py:72 | When the frontier runs empty, the goal was never recorded, and the recorded cells contain every open neighbour of each recorded cell. |
| Search.Begin | Code.py:66-69 | Before the loop, start alone is recorded, with no predecessor and cost 0, and it is the only entry on the frontier, with priority 0. The loop's invariant holds of this state. |
| Search.Round | Code.py:72-85 | One round pops the front entry for breadth-first search and the least entry for the priority queue. It stops exactly when that entry's cell is the goal, and then the state is unchanged except that the entry is gone. Otherwise the popped cell is the one expanded. Old links and costs are kept, and each new cell is an open neighbour of the popped cell, linked to it at one more than its cost. The new entries are pushed in the order up, right, down, left, and the frontier is the rest plus those entries. A popped goal is left recorded and never expanded (with a shortest cost for the searches that pop in cost order). An expansion keeps the loop's invariant, keeps every recorded cell, and either records a new cell or shrinks the frontier, so the loop ends on a finite grid. |
| Search.TryStep | Code.py:79-85 | Trying one direction keeps the predecessor tree, the push log and the cost layering. Afterwards that neighbour, if open, is recorded (for breadth-first and uniform-cost search, at cost at most one more than the popped cell). Anything newly recorded is an open neighbour of the popped cell, and it is pushed behind the frontier. The result is `Search.TryDirection` applied to the state before it, so it depends on nothing else. |
| Search.TryNeighbours | Code.py:78-85 | The result is the scan from the current direction on. `Search.ScanAppends` shows that this scan pushes its entries in the order up, right, down, left. After trying the remaining directions, every open neighbour of the popped cell is recorded. Only open neighbours not recorded before are added, each with the popped cell as predecessor and one more than its cost. The predecessor tree, the push log and the cost layering are kept. |
| Search.RunFrom | Code.py:72-76 | From any state that satisfies the loop's invariant, the loop ends. It ends with the outcome stated for `Search.Run`. |
| Search.Run | Code.py:65-85 | The predecessor links form a tree rooted at start. Each link is a unit step between open cells, and the cost rises by exactly one along it. The predecessor and cost maps have the same keys. Every recorded cell was pushed exactly once, with its strategy's priority. The goal is never expanded. The goal is found exactly when it was recorded. If it is not found, the recorded cells contain every open neighbour of each recorded cell. For the two searches that pop in cost order, the goal's cost is a shortest walk's length. |
| Solver.LinkedPathCost | Code.py:56-63 | Along a chain of predecessor links from a cell without predecessor, the `i`-th cell is recorded at cost `i`. |
| Solver.LinkedPathIsSimple | Code.py:56-63 | A chain of predecessor links never repeats a cell. |
| Solver.Solve | Code.py:65-94 | The route ends at the goal. `found` holds exactly when the goal is reachable. A found route is a walk from start to goal that never repeats a cell, longer than their Manhattan distance, and a shortest one except for A*. An unreachable goal gives `[goal]`, and `start == goal` gives `[start]`. |
| Solver.SolveBfs | Code.py:39-63 | Breadth-first search returns a shortest route to a reachable goal, and `[goal]` for an unreachable one. |
| Solver.SolveDijkstra | Code.py:65-94 | Uniform-cost search returns a shortest route to a reachable goal, and `[goal]` for an unreachable one. |
| Solver.SolveAStar | Code.py:96-126 | A* returns a walk from start to a reachable goal, with more cells than the Manhattan distance between them, and `[goal]` for an unreachable goal. |
| Solver.CompareStrategies | Code.py:157-167 | On the same maze, breadth-first and uniform-cost routes have equal length, and the A* route is never shorter. All three end at the goal. |
| Sample.Maze1MeetsPreconditions | Code.py:15-33 | The predefined maze is rectangular with an all-wall border, and the start cell `(1, 1)` is open. |
| Sample.RouteIsWalk | Code.py:15-33 | The predefined maze has a walk of 29 steps from `(1, 1)` to `(18, 13)`, which equals their Manhattan distance. |
| Sample.SolveMaze1 | Code.py:153-167 | On the predefined maze all three solvers find the end point. Breadth-first and uniform-cost search return a 30-cell route, and A* returns a route of at least 30 cells. |
| GapMaze.OnlySimpleRoute | Code.py:39-54 | On the gap maze, every walk from `(1, 1)` to `(3, 3)` that never repeats a cell passes through the gap `(2, 2)`: it is exactly the five-cell route. |
| GapMaze.SolveGap | Code.py:39-126 | On the gap maze, breadth-first, uniform-cost and A* search all return the five-cell route through the gap. |

## Left out

- Rendering and animation (`animate_path`, `Code.py:129-150`) and the notebook display of the driver's results: presentation only, with nothing to verify.
- The module-level settings `maze_size`, `character` and `end_point`: the maze, start and goal are parameters of every solver instead.
- The internals of `deque` and `PriorityQueue`: the frontier is a sequence, popped at the front or at its least `(priority, x, y)` entry. No heap structure is modelled.
- Python's negative-index wraparound and `IndexError` on `maze[ny][nx]`: every search requires a rectangular maze with an all-wall border and an open start cell. Under that precondition no neighbour access leaves the grid. The goal is not constrained.
- Breadth-first search in the source keeps no cost dictionary, and its deque holds bare cells. The model keeps the depth of every cell in the cost map and tags deque entries with it. The first-in-first-out pop never looks at the tag, so the order of expansion is unchanged.
- Breadth-first search in the source tests membership in `came_from`, and the two cost-based searches test `cost_so_far`. The model tests the cost map in all three. This is the same test, because the two maps always have the same keys, as `Search.Run` states.
- The source functions return only the route. The `found` flag returned beside it carries no information the route does not already determine together with reachability.
- GapMaze: the number of cells each strategy expands on the gap maze is not stated, because `Search.Run` does not return the log of expanded cells to the solvers, and their contracts describe the route, not the work done.
- Idempotence: the model's operations are deterministic methods, so two calls on the same inputs return the same route. No separate statement is made.
- Solver.SolveAStar: does not promise a shortest route, because the code closes cells at discovery and never relaxes a cost, so a shortest route is not guaranteed.
- Solver.CompareStrategies: states that A*'s route is at least as long as breadth-first search's route, not that the two are equal, for the same reason.

=== FILE: frontier.dfy ===
/** The usual optional value; the predecessor of the start cell is `None`. */
module Options {
  datatype Option<T> = None | Some(value: T)
}

/**
 The frontier of discovered but unexpanded cells, and the rule each strategy
 uses to take the next one out of it: first in, first out for breadth-first
 search, smallest `(priority, x, y)` triple for the two priority-queue searches.
 */
module Frontier {
  import opened Grid

  datatype Strategy = Bfs | Dijkstra | AStar

  /** A queue entry, compared as the triple `(priority, x, y)`. */
  datatype Entry = Entry(priority: int, cell: Cell)

  /** Lexicographic order on `(priority, x, y)`: the order the priority queue hands entries out. */
  predicate EntryLeq(a: Entry, b: Entry)
  {
    || a.priority < b.priority
    || (a.priority == b.priority && a.cell.x < b.cell.x)
    || (a.priority == b.priority && a.cell.x == b.cell.x && a.cell.y <= b.cell.y)
  }

  /** `EntryLeq` is a total order. */
  lemma EntryLeqIsTotalOrder(a: Entry, b: Entry, c: Entry)
    ensures EntryLeq(a, a)
    ensures EntryLeq(a, b) && EntryLeq(b, a) ==> a == b
    ensures EntryLeq(a, b) && EntryLeq(b, c) ==> EntryLeq(a, c)
    ensures EntryLeq(a, b) || EntryLeq(b, a)
  {
  }

  /** A queue has at most one least entry, so the priority queue's choice is determined. */
  lemma LeastEntryUnique(q: seq<Entry>, k1: nat, k2: nat)
    requires k1 < |q| && k2 < |q|
    requires forall j :: 0 <= j < |q| ==> EntryLeq(q[k1], q[j])
    requires forall j :: 0 <= j < |q| ==> EntryLeq(q[k2], q[j])
    ensures q[k1] == q[k2]
  {
    assert EntryLeq(q[k1], q[k2]) && EntryLeq(q[k2], q[k1]);
    EntryLeqIsTotalOrder(q[k1], q[k2], q[k1]);
  }

  /**
   The priority an entry is pushed with when its cell is discovered at cost
   `newCost`: the cost itself for Dijkstra, the cost plus the Manhattan
   distance to the goal for A*. The breadth-first deque holds bare cells;
   its entries are tagged with their depth, which the first-in-first-out
   pop never looks at.
   */
  function Priority(strategy: Strategy, newCost: nat, c: Cell, goal: Cell): int
  {
    match strategy
    case AStar => newCost + ManhattanDistance(c.x, c.y, goal.x, goal.y)
    case _ => newCost
  }

  /**
   Priorities never overestimate: a cell reached at cost `newCost` is pushed
   with a priority no greater than the cost at which any walk from it
   reaches the goal.
   */
  lemma PriorityAdmissible(maze: Maze, strategy: Strategy, newCost: nat, w: seq<Cell>, goal: Cell)
    requires IsWalk(maze, w) && w[|w| - 1] == goal
    ensures Priority(strategy, newCost, w[0], goal) <= newCost + |w| - 1
  {
    WalkNoShorterThanDistance(maze, w);
  }

  /**
   A* priorities never fall along a step: a neighbour discovered at one more
   than a cell's cost gets a priority at least that cell's.
   */
  lemma PriorityConsistent(strategy: Strategy, n: nat, c: Cell, i: int, goal: Cell)
    requires 0 <= i < |Directions|
    ensures Priority(strategy, n, c, goal) <= Priority(strategy, n + 1, Step(c, i), goal)
  {
    ManhattanIsMetric(c, Step(c, i), goal);
  }

  /** The queue with the entry at position `k` taken out. */
  function RemoveAt(q: seq<Entry>, k: nat): (r: seq<Entry>)
    requires k < |q|
    ensures |r| == |q| - 1
    ensures forall i :: 0 <= i < k ==> r[i] == q[i]
    ensures forall i :: k <= i < |r| ==> r[i] == q[i + 1]
    ensures forall e :: e in r ==> e in q
    ensures forall i :: 0 <= i < |q| && i != k ==> q[i] in r
  {
    var r := q[..k] + q[k + 1..];
    assert forall i :: k < i < |q| ==> r[i - 1] == q[i];
    r
  }

  /**
   The position of the entry the strategy takes out next: the front for the
   deque, the least `(priority, x, y)` entry for the priority queue.
   */
  method PopIndex(strategy: Strategy, q: seq<Entry>) returns (k: nat)
    requires |q| > 0
    ensures k < |q|
    ensures strategy == Bfs ==> k == 0
    ensures strategy != Bfs ==> forall j :: 0 <= j < |q| ==> EntryLeq(q[k], q[j])
  {
    if strategy == Bfs {
      return 0;
    }
    k := 0;
    var j := 1;
    while j < |q|
      invariant 1 <= j <= |q|
      invariant k < j
      invariant forall m :: 0 <= m < j ==> EntryLeq(q[k], q[m])
    {
      if !EntryLeq(q[k], q[j]) {
        k := j;
      }
      j := j + 1;
    }
  }
}

=== FILE: gap.dfy ===
/**
 A 5 x 5 walled grid whose middle column is a wall except for one gap. The
 only route from `(1, 1)` to `(3, 3)` that never repeats a cell goes through
 the gap, so all three solvers must return it.
 */
module GapMaze {
  import opened Grid
  import opened Solver

  const Gap: Maze := [
    [1, 1, 1, 1, 1],
    [1, 0, 1, 0, 1],
    [1, 0, 0, 0, 1],
    [1, 0, 1, 0, 1],
    [1, 1, 1, 1, 1]
  ]

  const From := Cell(1, 1)
  const To := Cell(3, 3)

  /** The route through the gap. */
  const Through: seq<Cell> := [Cell(1, 1), Cell(1, 2), Cell(2, 2), Cell(3, 2), Cell(3, 3)]

  lemma GapMeetsPreconditions()
    ensures Walled(Gap) && IsOpen(Gap, From) && IsOpen(Gap, To)
  {
  }

  /** The open neighbours of each open cell. */
  function OpenNeighbours(c: Cell): set<Cell>
  {
    if c == Cell(1, 1) then {Cell(1, 2)}
    else if c == Cell(1, 2) then {Cell(1, 1), Cell(1, 3), Cell(2, 2)}
    else if c == Cell(1, 3) then {Cell(1, 2)}
    else if c == Cell(2, 2) then {Cell(1, 2), Cell(3, 2)}
    else if c == Cell(3, 1) then {Cell(3, 2)}
    else if c == Cell(3, 2) then {Cell(3, 1), Cell(2, 2), Cell(3, 3)}
    else if c == Cell(3, 3) then {Cell(3, 2)}
    else {}
  }

  lemma OpenCells(c: Cell)
    requires IsOpen(Gap, c)
    ensures c.x in {1, 2, 3} && c.y in {1, 2, 3}
    ensures c != Cell(2, 1) && c != Cell(2, 3)
  {
    assert c.y != 0 && c.y != 4 && c.x != 0 && c.x != 4;
  }

  lemma StepsOnGap(a: Cell, b: Cell)
    requires IsOpen(Gap, a) && IsOpen(Gap, b) && Adjacent(a, b)
    ensures b in OpenNeighbours(a)
  {
    OpenCells(a);
    OpenCells(b);
  }

  lemma ThroughIsWalk()
    ensures IsWalkFrom(Gap, Through, From, To)
  {
  }

  /** A chain of open neighbours from `From` to `To` that never repeats a cell is the route through the gap. */
  lemma OnlySimpleChain(w: seq<Cell>)
    requires |w| > 0 && w[0] == From && w[|w| - 1] == To && Simple(w)
    requires forall i :: 0 <= i < |w| - 1 ==> w[i + 1] in OpenNeighbours(w[i])
    ensures w == Through
  {
    assert |w| >= 2 && w[1] in OpenNeighbours(w[0]);
    assert w[1] == Cell(1, 2) && w[1] != To;
    assert |w| >= 3 && w[2] in OpenNeighbours(w[1]) && w[2] != w[0];
    assert w[2] in {Cell(1, 3), Cell(2, 2)} && w[2] != To;
    assert |w| >= 4 && w[3] in OpenNeighbours(w[2]) && w[3] != w[1];
    assert w[3] == Cell(3, 2) && w[2] == Cell(2, 2) && w[3] != To;
    assert |w| >= 5 && w[|w| - 1] in OpenNeighbours(w[|w| - 2]);
    assert w[|w| - 2] == Cell(3, 2) == w[3];
    assert |w| == 5;
  }

  /** Every walk from `From` to `To` that never repeats a cell is the route through the gap. */
  lemma OnlySimpleRoute(w: seq<Cell>)
    requires IsWalkFrom(Gap, w, From, To) && Simple(w)
    ensures w == Through
  {
    forall i | 0 <= i < |w| - 1
      ensures w[i + 1] in OpenNeighbours(w[i])
    {
      StepsOnGap(w[i], w[i + 1]);
    }
    OnlySimpleChain(w);
  }

  /**
   On the gap maze all three solvers return the route through the gap:
   a shortest route, and the only one that never repeats a cell.
   */
  method SolveGap() returns (bfs: seq<Cell>, dijkstra: seq<Cell>, astar: seq<Cell>)
    ensures bfs == Through && dijkstra == Through && astar == Through
  {
    GapMeetsPreconditions();
    ThroughIsWalk();
    var found;
    bfs, found := SolveBfs(Gap, From, To);
    OnlySimpleRoute(bfs);
    dijkstra, found := SolveDijkstra(Gap, From, To);
    OnlySimpleRoute(dijkstra);
    astar, found := SolveAStar(Gap, From, To);
    OnlySimpleRoute(astar);
  }
}

=== FILE: grid.dfy ===
/**
 This module describes the static occupancy grid the searches run on: cells,
 the four unit moves, Manhattan distance, open cells, the walled border the
 searches rely on for in-range indexing, and walks through open cells.
 */
module Grid {

  /** A cell `(x, y)`; the grid is indexed as `maze[y][x]`. */
  datatype Cell = Cell(x: int, y: int)

  /** Rows of traversability flags: `0` is open, anything else is a wall. */
  type Maze = seq<seq<int>>

  /** The moves tried from every cell, in this order: up, right, down, left. */
  const Directions: seq<(int, int)> := [(0, -1), (1, 0), (0, 1), (-1, 0)]

  /** The neighbour of `c` in direction number `i`: one unit step away (`AdjacentIffStep` gives the converse). */
  function Step(c: Cell, i: int): (n: Cell)
    requires 0 <= i < |Directions|
    ensures Adjacent(c, n)
  {
    Cell(c.x + Directions[i].0, c.y + Directions[i].1)
  }

  function Abs(n: int): nat
  {
    if n < 0 then -n else n
  }

  /** The A* heuristic: horizontal plus vertical distance. */
  function ManhattanDistance(x1: int, y1: int, x2: int, y2: int): (d: nat)
    ensures d == 0 <==> x1 == x2 && y1 == y2
    ensures d >= x1 - x2 && d >= x2 - x1 && d >= y1 - y2 && d >= y2 - y1
  {
    Abs(x1 - x2) + Abs(y1 - y2)
  }

  function Distance(a: Cell, b: Cell): nat
  {
    ManhattanDistance(a.x, a.y, b.x, b.y)
  }

  /** Manhattan distance is a metric on cells. */
  lemma ManhattanIsMetric(a: Cell, b: Cell, c: Cell)
    ensures Distance(a, b) == Distance(b, a)
    ensures Distance(a, b) == 0 <==> a == b
    ensures Distance(a, c) <= Distance(a, b) + Distance(b, c)
  {
  }

  /** Two cells one unit step apart. */
  predicate Adjacent(a: Cell, b: Cell)
  {
    Distance(a, b) == 1
  }

  /** Every move in `Directions` is a unit step, and every unit step is one of them. */
  lemma AdjacentIffStep(a: Cell, b: Cell)
    ensures Adjacent(a, b) <==> exists i :: 0 <= i < |Directions| && Step(a, i) == b
  {
    if Adjacent(a, b) {
      if b.y == a.y - 1 {
        assert Step(a, 0) == b;
      } else if b.x == a.x + 1 {
        assert Step(a, 1) == b;
      } else if b.y == a.y + 1 {
        assert Step(a, 2) == b;
      } else {
        assert Step(a, 3) == b;
      }
    }
  }

  predicate InBounds(maze: Maze, c: Cell)
  {
    0 <= c.y < |maze| && 0 <= c.x < |maze[c.y]|
  }

  predicate IsOpen(maze: Maze, c: Cell)
  {
    InBounds(maze, c) && maze[c.y][c.x] == 0
  }

  /** Rectangular, with walls all along the outer rows and columns. */
  predicate Walled(maze: Maze)
  {
    && |maze| > 0
    && (forall y :: 0 <= y < |maze| ==> |maze[y]| == |maze[0]|)
    && (forall x :: 0 <= x < |maze[0]| ==> maze[0][x] != 0 && maze[|maze| - 1][x] != 0)
    && (forall y :: 0 <= y < |maze| && |maze[y]| > 0 ==> maze[y][0] != 0 && maze[y][|maze[y]| - 1] != 0)
  }

  /** Every cell of the grid. */
  function AllCells(maze: Maze): (cells: set<Cell>)
    ensures forall c :: c in cells <==> InBounds(maze, c)
  {
    set y, x | 0 <= y < |maze| && 0 <= x < |maze[y]| :: Cell(x, y)
  }

  /** On a walled grid every neighbour of an open cell can be indexed. */
  lemma StepInBounds(maze: Maze, c: Cell, i: int)
    requires Walled(maze) && IsOpen(maze, c)
    requires 0 <= i < |Directions|
    ensures InBounds(maze, Step(c, i))
  {
    assert maze[0][c.x] != 0 && maze[|maze| - 1][c.x] != 0;
    assert maze[c.y][0] != 0 && maze[c.y][|maze[c.y]| - 1] != 0;
  }

  /** A non-empty sequence of open cells, each one unit step from the previous one. */
  ghost predicate IsWalk(maze: Maze, w: seq<Cell>)
  {
    && |w| > 0
    && (forall i :: 0 <= i < |w| ==> IsOpen(maze, w[i]))
    && (forall i :: 0 <= i < |w| - 1 ==> Adjacent(w[i], w[i + 1]))
  }

  ghost predicate IsWalkFrom(maze: Maze, w: seq<Cell>, a: Cell, b: Cell)
  {
    IsWalk(maze, w) && w[0] == a && w[|w| - 1] == b
  }

  /** A walk that never visits a cell twice. */
  ghost predicate Simple(w: seq<Cell>)
  {
    forall i, j :: 0 <= i < j < |w| ==> w[i] != w[j]
  }

  /** `b` can be reached from `a` through open cells. */
  ghost predicate Reachable(maze: Maze, a: Cell, b: Cell)
  {
    exists w :: IsWalkFrom(maze, w, a, b)
  }

  /** Two walks where the second starts next to where the first ends join into one. */
  lemma JoinWalks(maze: Maze, v: seq<Cell>, w: seq<Cell>)
    requires IsWalk(maze, v) && IsWalk(maze, w)
    requires Adjacent(v[|v| - 1], w[0])
    ensures IsWalk(maze, v + w)
  {
    var u := v + w;
    forall i | 0 <= i < |u| - 1
      ensures Adjacent(u[i], u[i + 1])
    {
      if i < |v| - 1 {
        assert u[i] == v[i] && u[i + 1] == v[i + 1];
      } else if i >= |v| {
        assert u[i] == w[i - |v|] && u[i + 1] == w[i + 1 - |v|];
      }
    }
  }

  /** A set of cells that contains every open neighbour of each of its cells. */
  ghost predicate ClosedUnderSteps(maze: Maze, k: set<Cell>)
  {
    forall c, i :: c in k && 0 <= i < |Directions| && IsOpen(maze, Step(c, i)) ==> Step(c, i) in k
  }

  /** Manhattan distance never overestimates the number of steps of a walk (admissibility). */
  lemma {:induction false} WalkNoShorterThanDistance(maze: Maze, w: seq<Cell>)
    requires IsWalk(maze, w)
    ensures Distance(w[0], w[|w| - 1]) <= |w| - 1
  {
    if |w| > 1 {
      var v := w[..|w| - 1];
      assert IsWalk(maze, v);
      WalkNoShorterThanDistance(maze, v);
      ManhattanIsMetric(w[0], w[|w| - 2], w[|w| - 1]);
    }
  }

  /** A walk that starts inside a closed set never leaves it. */
  lemma {:induction false} ClosedSetTrapsWalk(maze: Maze, k: set<Cell>, w: seq<Cell>)
    requires ClosedUnderSteps(maze, k)
    requires IsWalk(maze, w) && w[0] in k
    ensures forall j :: 0 <= j < |w| ==> w[j] in k
  {
    if |w| > 1 {
      var v := w[..|w| - 1];
      assert IsWalk(maze, v);
      ClosedSetTrapsWalk(maze, k, v);
      var a, b := w[|w| - 2], w[|w| - 1];
      assert a == v[|v| - 1] && a in k;
      assert Adjacent(a, b);
      AdjacentIffStep(a, b);
      var i :| 0 <= i < |Directions| && Step(a, i) == b;
      assert b in k;
      assert forall j :: 0 <= j < |w| - 1 ==> w[j] == v[j];
    }
  }

  /** When the closed set holds `a` but not `b`, no walk leads from `a` to `b`. */
  lemma Unreachable(maze: Maze, k: set<Cell>, a: Cell, b: Cell)
    requires ClosedUnderSteps(maze, k)
    requires a in k && b !in k
    ensures !Reachable(maze, a, b)
  {
    forall w | IsWalk(maze, w) && w[0] == a
      ensures w[|w| - 1] != b
    {
      ClosedSetTrapsWalk(maze, k, w);
    }
  }
}

=== FILE: reconstruction.dfy ===
/**
 Path reconstruction: follow the predecessor links back from the goal until a
 cell without a predecessor, collecting cells goal-first, then reverse.
 */
module Reconstruction {
  import opened Options
  import opened Grid

  /**
   Dictionary lookup with a default: a predecessor is returned exactly for a
   recorded cell that has one; an unrecorded cell has none.
   */
  function Get(cameFrom: map<Cell, Option<Cell>>, c: Cell): Option<Cell>
  {
    if c in cameFrom then cameFrom[c] else None
  }

  /**
   Every link leads to a recorded cell whose cost is one less, and cells
   without a predecessor have cost 0; so following links always stops.
   */
  ghost predicate Ranked(cameFrom: map<Cell, Option<Cell>>, cost: map<Cell, nat>)
  {
    && (forall c :: c in cameFrom <==> c in cost)
    && (forall c :: c in cameFrom && cameFrom[c].None? ==> cost[c] == 0)
    && (forall c :: c in cameFrom && cameFrom[c].Some? ==>
          cameFrom[c].value in cameFrom && cost[c] == cost[cameFrom[c].value] + 1)
  }

  /** The list in the opposite order, as `list.reverse` leaves it. */
  function Reverse<T>(s: seq<T>): (r: seq<T>)
    ensures |r| == |s|
    ensures forall i :: 0 <= i < |s| ==> r[i] == s[|s| - 1 - i]
  {
    if |s| == 0 then [] else Reverse(s[1..]) + [s[0]]
  }

  /** Links still to be followed from `current`. */
  function Remaining(cost: map<Cell, nat>, current: Option<Cell>): nat
  {
    match current
    case None => 0
    case Some(c) => if c in cost then cost[c] + 2 else 1
  }

  /**
   Following one link from a recorded cell either stops at a cell of cost 0
   or reaches a recorded cell one cheaper, so the number of links still to
   be followed drops: this is why the reconstruction loop ends.
   */
  lemma GetStepsDown(cameFrom: map<Cell, Option<Cell>>, cost: map<Cell, nat>, c: Cell)
    requires Ranked(cameFrom, cost) && c in cameFrom
    ensures Get(cameFrom, c).None? ==> cost[c] == 0
    ensures Get(cameFrom, c).Some? ==> Get(cameFrom, c).value in cameFrom && cost[Get(cameFrom, c).value] + 1 == cost[c]
    ensures Remaining(cost, Get(cameFrom, c)) < Remaining(cost, Some(c))
  {
  }

  /**
   The route to `goal`: for a recorded goal, a chain of predecessor links
   from a root (a cell recorded without predecessor) to the goal, one cell
   longer than the goal's cost; for an unrecorded goal, just `[goal]`.
   */
  method Reconstruct(cameFrom: map<Cell, Option<Cell>>, goal: Cell, ghost cost: map<Cell, nat>)
    returns (path: seq<Cell>)
    requires Ranked(cameFrom, cost)
    ensures goal !in cameFrom ==> path == [goal]
    ensures goal in cameFrom ==>
      && |path| == cost[goal] + 1
      && path[|path| - 1] == goal
      && path[0] in cameFrom && cameFrom[path[0]] == None
      && (forall i :: 0 < i < |path| ==> path[i] in cameFrom && cameFrom[path[i]] == Some(path[i - 1]))
  {
    var walk: seq<Cell> := [];
    var current := Some(goal);
    while current.Some?
      invariant goal !in cameFrom ==>
        (walk == [] && current == Some(goal)) || (walk == [goal] && current == None)
      invariant goal in cameFrom ==>
        && (current.Some? ==> current.value in cameFrom)
        && |walk| + (if current.Some? then cost[current.value] + 1 else 0) == cost[goal] + 1
        && (walk == [] ==> current == Some(goal))
        && (forall i :: 0 <= i < |walk| ==> walk[i] in cameFrom)
        && (walk != [] ==> walk[0] == goal && current == cameFrom[walk[|walk| - 1]])
        && (forall i :: 0 <= i < |walk| - 1 ==> cameFrom[walk[i]] == Some(walk[i + 1]))
      decreases Remaining(cost, current)
    {
      if current.value in cameFrom {
        GetStepsDown(cameFrom, cost, current.value);
      }
      walk := walk + [current.value];
      current := Get(cameFrom, current.value);
    }
    path := Reverse(walk);
  }
}

=== FILE: sample.dfy ===
module Sample {
  import opened Grid
  import opened Solver

  /** The predefined 20-column, 15-row maze, with the start and end points the driver uses. */
  const Maze1: Maze := [
    [1, 1, 1, 1, 1, 1, 1, 1, 1, 1, 1, 1, 1, 1, 1, 1, 1, 1, 1, 1],
    [1, 0, 0, 0, 0, 1, 0, 1, 0, 0, 0, 0, 0, 1, 0, 1, 0, 0, 0, 1],
    [1, 0, 1, 1, 0, 1, 0, 1, 0, 1, 1, 1, 0, 1, 0, 1, 1, 1, 0, 1],
    [1, 0, 0, 1, 0, 0, 0, 0, 0, 0, 0, 1, 0, 0, 0, 0, 0, 1, 0, 1],
    [1, 1, 0, 1, 1, 1, 1, 1, 1, 1, 0, 1, 1, 1, 1, 1, 0, 1, 0, 1],
    [1, 0, 0, 0, 0, 0, 0, 0, 0, 1, 0, 0, 0, 0, 0, 0, 0, 0, 0, 1],
    [1, 0, 1, 1, 1, 1, 1, 1, 0, 1, 1, 1, 1, 1, 1, 1, 1, 1, 0, 1],
    [1, 0, 0, 0, 0, 0, 0, 1, 0, 0, 0, 0, 0, 0, 0, 1, 0, 0, 0, 1],
    [1, 1, 1, 1, 1, 1, 0, 1, 1, 1, 1, 1, 1, 1, 0, 1, 1, 1, 1, 1],
    [1, 0, 0, 0, 0, 1, 0, 1, 0, 0, 0, 1, 0, 0, 0, 0, 0, 0, 0, 1],
    [1, 0, 1, 1, 0, 1, 0, 1, 0, 1, 1, 1, 0, 1, 1, 1, 1, 1, 0, 1],
    [1, 0, 0, 1, 0, 0, 0, 0, 0, 0, 0, 1, 0, 0, 0, 0, 0, 1, 0, 1],
    [1, 1, 0, 1, 1, 1, 1, 1, 1, 1, 0, 1, 1, 1, 1, 1, 0, 1, 0, 1],
    [1, 0, 0, 0, 0, 0, 0, 0, 0, 1, 0, 0, 0, 0, 0, 0, 0, 0, 0, 1],
    [1, 1, 1, 1, 1, 1, 1, 1, 1, 1, 1, 1, 1, 1, 1, 1, 1, 1, 1, 1]
  ]

  const Start := Cell(1, 1)
  const End := Cell(18, 13)

  /** The grid meets the solvers' precondition, and both end points are open. */
  lemma Maze1MeetsPreconditions()
    ensures Walled(Maze1) && IsOpen(Maze1, Start) && IsOpen(Maze1, End)
  {
  }

  /**
   A route of 29 steps, which is the Manhattan distance between the end
   points, written as six legs of five cells.
   */
  const Legs: seq<seq<Cell>> := [
    [Cell(1, 1), Cell(1, 2), Cell(1, 3), Cell(2, 3), Cell(2, 4)],
    [Cell(2, 5), Cell(3, 5), Cell(4, 5), Cell(5, 5), Cell(6, 5)],
    [Cell(7, 5), Cell(8, 5), Cell(8, 6), Cell(8, 7), Cell(9, 7)],
    [Cell(10, 7), Cell(11, 7), Cell(12, 7), Cell(13, 7), Cell(14, 7)],
    [Cell(14, 8), Cell(14, 9), Cell(15, 9), Cell(16, 9), Cell(17, 9)],
    [Cell(18, 9), Cell(18, 10), Cell(18, 11), Cell(18, 12), Cell(18, 13)]
  ]

  function Route(): seq<Cell>
  {
    Legs[0] + Legs[1] + Legs[2] + Legs[3] + Legs[4] + Legs[5]
  }

  // Each leg is proved a walk by its own lemma, so that every proof obligation
  // stays small; `RouteIsWalk` joins the six.
  lemma Leg0IsWalk()
    ensures IsWalk(Maze1, Legs[0])
  {
  }

  lemma Leg1IsWalk()
    ensures IsWalk(Maze1, Legs[1])
  {
  }

  lemma Leg2IsWalk()
    ensures IsWalk(Maze1, Legs[2])
  {
  }

  lemma Leg3IsWalk()
    ensures IsWalk(Maze1, Legs[3])
  {
  }

  lemma Leg4IsWalk()
    ensures IsWalk(Maze1, Legs[4])
  {
  }

  lemma Leg5IsWalk()
    ensures IsWalk(Maze1, Legs[5])
  {
  }

  lemma RouteIsWalk()
    ensures IsWalkFrom(Maze1, Route(), Start, End)
  {
    Leg0IsWalk();
    Leg1IsWalk();
    Leg2IsWalk();
    Leg3IsWalk();
    Leg4IsWalk();
    Leg5IsWalk();
    JoinWalks(Maze1, Legs[0], Legs[1]);
    JoinWalks(Maze1, Legs[0] + Legs[1], Legs[2]);
    JoinWalks(Maze1, Legs[0] + Legs[1] + Legs[2], Legs[3]);
    JoinWalks(Maze1, Legs[0] + Legs[1] + Legs[2] + Legs[3], Legs[4]);
    JoinWalks(Maze1, Legs[0] + Legs[1] + Legs[2] + Legs[3] + Legs[4], Legs[5]);
  }

  /**
   The driver: all three solvers on the predefined maze. Each finds the end
   point; breadth-first and uniform-cost search return a 30-cell route, and
   A* one of at least 30 cells.
   */
  method SolveMaze1() returns (bfs: seq<Cell>, dijkstra: seq<Cell>, astar: seq<Cell>)
    ensures IsWalkFrom(Maze1, bfs, Start, End) && |bfs| == 30
    ensures IsWalkFrom(Maze1, dijkstra, Start, End) && |dijkstra| == 30
    ensures IsWalkFrom(Maze1, astar, Start, End) && |astar| >= 30
  {
    Maze1MeetsPreconditions();
    RouteIsWalk();
    var found;
    bfs, found := SolveBfs(Maze1, Start, End);
    WalkNoShorterThanDistance(Maze1, bfs);
    dijkstra, found := SolveDijkstra(Maze1, Start, End);
    WalkNoShorterThanDistance(Maze1, dijkstra);
    astar, found := SolveAStar(Maze1, Start, End);
  }
}

=== FILE: search.dfy ===
/**
 The search skeleton shared by breadth-first, uniform-cost and A* search:
 take the next frontier entry, stop if its cell is the goal, otherwise try
 the four neighbours in order and record every open, not yet recorded one
 (predecessor and cost) at the moment it is discovered.
 */
module Search {
  import opened Options
  import opened Grid
  import opened Frontier

  /**
   The data of one search: the predecessor and cost dictionaries, the
   frontier, and two logs that the source does not keep: every entry ever
   pushed, in order, and every cell expanded, in order.
   */
  datatype State = State(
    cameFrom: map<Cell, Option<Cell>>,
    cost: map<Cell, nat>,
    frontier: seq<Entry>,
    pushes: seq<Entry>,
    expanded: seq<Cell>)

  /**
   The predecessor links form a tree rooted at `start`: both dictionaries
   have the same keys, start has no predecessor and cost 0, and every other
   recorded cell is open, one unit step from its recorded predecessor, and
   costs one more than it.
   */
  ghost predicate Tree(maze: Maze, start: Cell, cameFrom: map<Cell, Option<Cell>>, cost: map<Cell, nat>)
  {
    && (forall c :: c in cameFrom <==> c in cost)
    && start in cameFrom && cameFrom[start] == None && cost[start] == 0
    && (forall c :: c in cameFrom && c != start ==>
          && IsOpen(maze, c)
          && cameFrom[c].Some?
          && cameFrom[c].value in cameFrom
          && Adjacent(cameFrom[c].value, c)
          && cost[c] == cost[cameFrom[c].value] + 1)
  }

  /** Start is pushed with priority 0; every other cell with the strategy's priority for its cost. */
  ghost predicate Tagged(start: Cell, goal: Cell, strategy: Strategy, cost: map<Cell, nat>, e: Entry)
  {
    && e.cell in cost
    && e.priority == (if e.cell == start then 0 else Priority(strategy, cost[e.cell], e.cell, goal))
  }

  function Cells(q: seq<Entry>): set<Cell>
  {
    set e | e in q :: e.cell
  }

  /**
   Every recorded cell was pushed exactly once, start first, each with the
   priority it was tagged with.
   */
  ghost predicate PushLog(start: Cell, goal: Cell, strategy: Strategy, cost: map<Cell, nat>, pushes: seq<Entry>)
  {
    && |pushes| > 0 && pushes[0] == Entry(0, start)
    && (forall i, j :: 0 <= i < j < |pushes| ==> pushes[i].cell != pushes[j].cell)
    && (forall e :: e in pushes ==> Tagged(start, goal, strategy, cost, e))
    && Cells(pushes) == cost.Keys
  }

  /** Every recorded cell is either expanded or waiting in the frontier; the goal is never expanded. */
  ghost predicate Bookkeeping(start: Cell, goal: Cell, strategy: Strategy, s: State)
  {
    && (forall e :: e in s.frontier ==> Tagged(start, goal, strategy, s.cost, e))
    && (forall c :: c in s.expanded ==> c in s.cost)
    && (forall c :: c in s.cost ==> c in s.expanded || c in Cells(s.frontier))
    && goal !in s.expanded
  }

  ghost predicate Core(maze: Maze, start: Cell, goal: Cell, strategy: Strategy, s: State)
  {
    && Tree(maze, start, s.cameFrom, s.cost)
    && PushLog(start, goal, strategy, s.cost, s.pushes)
    && Bookkeeping(start, goal, strategy, s)
  }

  /**
   The first `n` neighbours of `c` are recorded if open, and (for the two
   searches that pop in cost order) cost at most one more than `c`.
   */
  ghost predicate StepsRecorded(maze: Maze, strategy: Strategy, cost: map<Cell, nat>, c: Cell, n: int)
  {
    && c in cost
    && forall i :: 0 <= i < n && i < |Directions| && IsOpen(maze, Step(c, i)) ==>
         && Step(c, i) in cost
         && (strategy != AStar ==> cost[Step(c, i)] <= cost[c] + 1)
  }

  /** Every expanded cell has had all four neighbours tried. */
  ghost predicate Closed(maze: Maze, strategy: Strategy, s: State)
  {
    forall c :: c in s.expanded ==> StepsRecorded(maze, strategy, s.cost, c, |Directions|)
  }

  /**
   The layer structure of a search that pops in cost order: `level` is the
   cost of the last expanded cell; expanded cells cost at most `level`,
   frontier entries at least `level`, and nothing recorded more than
   `level + 1`. The deque is moreover sorted by depth.
   */
  ghost predicate Layered(strategy: Strategy, s: State, level: nat)
  {
    && (forall c :: c in s.expanded ==> c in s.cost && s.cost[c] <= level)
    && (forall e :: e in s.frontier ==> level <= e.priority <= level + 1)
    && (forall c :: c in s.cost ==> s.cost[c] <= level + 1)
    && (strategy == Bfs ==>
          forall i, j :: 0 <= i < j < |s.frontier| ==> s.frontier[i].priority <= s.frontier[j].priority)
  }

  lemma StepsRecordedGrows(maze: Maze, strategy: Strategy, cost: map<Cell, nat>, cost': map<Cell, nat>, c: Cell, n: int)
    requires StepsRecorded(maze, strategy, cost, c, n)
    requires forall k :: k in cost ==> k in cost' && cost'[k] == cost[k]
    ensures StepsRecorded(maze, strategy, cost', c, n)
  {
  }

  lemma StepsRecordedNext(maze: Maze, strategy: Strategy, cost: map<Cell, nat>, c: Cell, i: int)
    requires 0 <= i < |Directions|
    requires StepsRecorded(maze, strategy, cost, c, i)
    requires IsOpen(maze, Step(c, i)) ==>
      Step(c, i) in cost && (strategy != AStar ==> cost[Step(c, i)] <= cost[c] + 1)
    ensures StepsRecorded(maze, strategy, cost, c, i + 1)
  {
  }

  lemma CellsAppend(q: seq<Entry>, e: Entry)
    ensures Cells(q + [e]) == Cells(q) + {e.cell}
  {
    assert forall f :: f in q + [e] <==> f in q || f == e;
  }

  /** Recorded cells lie on the grid. */
  lemma TreeOnGrid(maze: Maze, start: Cell, cameFrom: map<Cell, Option<Cell>>, cost: map<Cell, nat>)
    requires IsOpen(maze, start)
    requires Tree(maze, start, cameFrom, cost)
    ensures cost.Keys <= AllCells(maze)
  {
  }

  /** For the searches that pop in cost order, an entry's priority is its cell's cost. */
  lemma PriorityIsCost(maze: Maze, start: Cell, goal: Cell, strategy: Strategy, s: State, e: Entry)
    requires strategy != AStar
    requires Tree(maze, start, s.cameFrom, s.cost)
    requires Tagged(start, goal, strategy, s.cost, e)
    ensures e.priority == s.cost[e.cell]
  {
  }

  lemma {:induction false} SubsetCard(a: set<Cell>, b: set<Cell>)
    requires a <= b
    ensures |a| <= |b|
    decreases |b|
  {
    if a != {} {
      var x :| x in a;
      SubsetCard(a - {x}, b - {x});
    }
  }

  /** Recording a new cell of the grid leaves fewer cells to record. */
  lemma RemainderShrinks(all: set<Cell>, k: set<Cell>, k': set<Cell>)
    requires k <= k' <= all && k != k'
    ensures |all - k'| < |all - k|
  {
    var c :| c in k' && c !in k;
    SubsetCard(all - k', (all - k) - {c});
    assert (all - k) == ((all - k) - {c}) + {c};
  }

  /**
   Taking entry `k` out of the frontier and marking its cell expanded keeps
   the bookkeeping, and every expanded cell other than the new one still has
   all its neighbours tried.
   */
  lemma PopKeepsCore(maze: Maze, start: Cell, goal: Cell, strategy: Strategy, s: State, k: nat)
    requires Core(maze, start, goal, strategy, s) && Closed(maze, strategy, s)
    requires k < |s.frontier| && s.frontier[k].cell != goal
    ensures var cur := s.frontier[k].cell;
      var s' := s.(frontier := RemoveAt(s.frontier, k), expanded := s.expanded + [cur]);
      && Core(maze, start, goal, strategy, s')
      && cur in s'.expanded
      && (forall c :: c in s'.expanded && c != cur ==> StepsRecorded(maze, strategy, s'.cost, c, |Directions|))
  {
    var cur := s.frontier[k].cell;
    var rest := RemoveAt(s.frontier, k);
    var s' := s.(frontier := rest, expanded := s.expanded + [cur]);
    assert Tagged(start, goal, strategy, s.cost, s.frontier[k]);
    assert forall c :: c in s'.expanded ==> c in s.expanded || c == cur;
    forall c | c in s.cost
      ensures c in s'.expanded || c in Cells(rest)
    {
      if c !in s.expanded {
        assert c in Cells(s.frontier);
        var e :| e in s.frontier && e.cell == c;
        var i :| 0 <= i < |s.frontier| && s.frontier[i] == e;
        if i != k {
          assert e in rest;
        }
      }
    }
  }

  /**
   Under the layer invariant, the entry the strategy takes out has the
   least cost in the frontier, so the layers survive raising the level to it.
   */
  lemma PopKeepsLayers(maze: Maze, start: Cell, goal: Cell, strategy: Strategy, s: State, level: nat, k: nat)
    requires strategy != AStar
    requires Core(maze, start, goal, strategy, s) && Layered(strategy, s, level)
    requires k < |s.frontier|
    requires strategy == Bfs ==> k == 0
    requires strategy != Bfs ==> forall j :: 0 <= j < |s.frontier| ==> EntryLeq(s.frontier[k], s.frontier[j])
    ensures s.frontier[k].cell in s.cost && s.cost[s.frontier[k].cell] == s.frontier[k].priority
    ensures forall e :: e in s.frontier ==> s.frontier[k].priority <= e.priority
    ensures var cur := s.frontier[k].cell;
      var s' := s.(frontier := RemoveAt(s.frontier, k), expanded := s.expanded + [cur]);
      Layered(strategy, s', s.cost[cur])
  {
    var q := s.frontier;
    PriorityIsCost(maze, start, goal, strategy, s, q[k]);
    forall e | e in q
      ensures q[k].priority <= e.priority
    {
      var j :| 0 <= j < |q| && q[j] == e;
      if strategy != Bfs {
        assert EntryLeq(q[k], q[j]);
      }
    }
  }

  /**
   Discovery of `next` from `cur`: record `cur` as its predecessor and one
   more than `cur`'s cost as its cost, and push it with the strategy's
   priority for that cost.
   */
  function Discover(strategy: Strategy, goal: Cell, s: State, cur: Cell, next: Cell): State
    requires cur in s.cost
  {
    var newCost := s.cost[cur] + 1;
    var e := Entry(Priority(strategy, newCost, next, goal), next);
    s.(cameFrom := s.cameFrom[next := Some(cur)], cost := s.cost[next := newCost],
       frontier := s.frontier + [e], pushes := s.pushes + [e])
  }

  lemma DiscoverKeepsTree(maze: Maze, start: Cell, goal: Cell, strategy: Strategy, s: State, cur: Cell, next: Cell)
    requires Tree(maze, start, s.cameFrom, s.cost)
    requires cur in s.cost && next !in s.cost && IsOpen(maze, next) && Adjacent(cur, next)
    ensures var t := Discover(strategy, goal, s, cur, next);
      Tree(maze, start, t.cameFrom, t.cost)
  {
  }

  lemma DiscoverKeepsLog(maze: Maze, start: Cell, goal: Cell, strategy: Strategy, s: State, cur: Cell, next: Cell)
    requires Tree(maze, start, s.cameFrom, s.cost)
    requires PushLog(start, goal, strategy, s.cost, s.pushes)
    requires cur in s.cost && next !in s.cost
    ensures var t := Discover(strategy, goal, s, cur, next);
      PushLog(start, goal, strategy, t.cost, t.pushes)
  {
    var t := Discover(strategy, goal, s, cur, next);
    var e := t.pushes[|s.pushes|];
    assert t.pushes == s.pushes + [e];
    CellsAppend(s.pushes, e);
    forall i | 0 <= i < |s.pushes|
      ensures s.pushes[i].cell != next
    {
      assert s.pushes[i] in s.pushes;
    }
    forall f | f in t.pushes
      ensures Tagged(start, goal, strategy, t.cost, f)
    {
      if f != e {
        assert f in s.pushes;
      }
    }
  }

  lemma DiscoverKeepsBookkeeping(maze: Maze, start: Cell, goal: Cell, strategy: Strategy, s: State, cur: Cell, next: Cell)
    requires Tree(maze, start, s.cameFrom, s.cost)
    requires Bookkeeping(start, goal, strategy, s)
    requires cur in s.cost && next !in s.cost
    ensures var t := Discover(strategy, goal, s, cur, next);
      Bookkeeping(start, goal, strategy, t)
  {
    var t := Discover(strategy, goal, s, cur, next);
    var e := t.frontier[|s.frontier|];
    assert t.frontier == s.frontier + [e];
    CellsAppend(s.frontier, e);
    forall f | f in t.frontier
      ensures Tagged(start, goal, strategy, t.cost, f)
    {
      if f != e {
        assert f in s.frontier;
      }
    }
  }

  lemma DiscoverKeepsLayers(strategy: Strategy, goal: Cell, s: State, level: nat, cur: Cell, next: Cell)
    requires strategy != AStar
    requires Layered(strategy, s, level)
    requires cur in s.cost && s.cost[cur] == level && next !in s.cost
    ensures Layered(strategy, Discover(strategy, goal, s, cur, next), level)
  {
    var t := Discover(strategy, goal, s, cur, next);
    var e := t.frontier[|s.frontier|];
    assert t.frontier == s.frontier + [e];
    assert forall f :: f in t.frontier ==> f in s.frontier || f == e;
  }

  /**
   What an expansion of `cur` may change between `s` and `t`: entries are
   only added to the dictionaries, each new cell is an open neighbour of
   `cur` costing one more than it, and the same new entries were appended
   to both the frontier and the push log.
   */
  ghost predicate Grown(maze: Maze, s: State, t: State, cur: Cell, added: seq<Entry>)
  {
    && t.expanded == s.expanded
    && cur in s.cost
    && (forall c :: c in s.cameFrom ==> c in t.cameFrom && t.cameFrom[c] == s.cameFrom[c])
    && (forall c :: c in s.cost ==> c in t.cost && t.cost[c] == s.cost[c])
    && (forall c :: c in t.cost && c !in s.cost ==>
          && Adjacent(cur, c) && IsOpen(maze, c)
          && c in t.cameFrom && t.cameFrom[c] == Some(cur) && t.cost[c] == s.cost[cur] + 1)
    && t.pushes == s.pushes + added && t.frontier == s.frontier + added
    && (t.cost.Keys == s.cost.Keys ==> added == [])
  }

  /** All expanded cells but `cur` have had every neighbour tried, `cur` its first `n`. */
  ghost predicate ClosedBut(maze: Maze, strategy: Strategy, t: State, cur: Cell, n: int)
  {
    && (forall c :: c in t.expanded && c != cur ==> StepsRecorded(maze, strategy, t.cost, c, |Directions|))
    && StepsRecorded(maze, strategy, t.cost, cur, n)
  }

  lemma DiscoverKeepsGrown(maze: Maze, strategy: Strategy, goal: Cell, s: State, t: State, cur: Cell, next: Cell,
                           added: seq<Entry>)
    requires Grown(maze, s, t, cur, added)
    requires next !in t.cost && next !in t.cameFrom && IsOpen(maze, next) && Adjacent(cur, next)
    ensures var t' := Discover(strategy, goal, t, cur, next);
      Grown(maze, s, t', cur, added + [t'.pushes[|t'.pushes| - 1]])
  {
    var t' := Discover(strategy, goal, t, cur, next);
    var e := t'.pushes[|t'.pushes| - 1];
    assert t'.pushes == t.pushes + [e] && t'.frontier == t.frontier + [e];
    assert s.pushes + added + [e] == s.pushes + (added + [e]);
    assert s.frontier + added + [e] == s.frontier + (added + [e]);
    assert next in t'.cost && next !in s.cost;
  }

  lemma DiscoverKeepsClosedBut(maze: Maze, strategy: Strategy, goal: Cell, t: State, cur: Cell, next: Cell, n: int)
    requires ClosedBut(maze, strategy, t, cur, n)
    requires next !in t.cost
    ensures ClosedBut(maze, strategy, Discover(strategy, goal, t, cur, next), cur, n)
  {
    var t' := Discover(strategy, goal, t, cur, next);
    forall c | c in t'.expanded && c != cur
      ensures StepsRecorded(maze, strategy, t'.cost, c, |Directions|)
    {
      StepsRecordedGrows(maze, strategy, t.cost, t'.cost, c, |Directions|);
    }
    StepsRecordedGrows(maze, strategy, t.cost, t'.cost, cur, n);
  }

  /**
   The entry direction `i` of the scan of `cur` pushes, given the cost
   dictionary before the scan: one entry when that neighbour is open and
   not recorded, none otherwise.
   */
  function NewEntry(maze: Maze, strategy: Strategy, goal: Cell, cost: map<Cell, nat>, cur: Cell, i: nat): seq<Entry>
    requires cur in cost && i < |Directions|
  {
    var next := Step(cur, i);
    if next !in cost && IsOpen(maze, next) then [Entry(Priority(strategy, cost[cur] + 1, next, goal), next)] else []
  }

  /** The entries the scan of `cur` pushes from direction `i` on, in the order up, right, down, left. */
  function NewEntries(maze: Maze, strategy: Strategy, goal: Cell, cost: map<Cell, nat>, cur: Cell, i: nat): seq<Entry>
    requires cur in cost && i <= |Directions|
    decreases |Directions| - i
  {
    if i == |Directions| then [] else NewEntry(maze, strategy, goal, cost, cur, i) + NewEntries(maze, strategy, goal, cost, cur, i + 1)
  }

  /**
   Recording the neighbour in direction `i` does not change what the later
   directions push: the four moves lead to four different cells.
   */
  lemma {:induction false} NewEntriesAfterDiscover(maze: Maze, strategy: Strategy, goal: Cell, cost: map<Cell, nat>,
                                                   cur: Cell, i: nat, j: nat, n: nat)
    requires cur in cost && i < j <= |Directions| && Step(cur, i) != cur
    ensures NewEntries(maze, strategy, goal, cost[Step(cur, i) := n], cur, j) == NewEntries(maze, strategy, goal, cost, cur, j)
    decreases |Directions| - j
  {
    if j < |Directions| {
      var cost' := cost[Step(cur, i) := n];
      assert Step(cur, j) != Step(cur, i) && cost'[cur] == cost[cur];
      assert NewEntry(maze, strategy, goal, cost', cur, j) == NewEntry(maze, strategy, goal, cost, cur, j);
      NewEntriesAfterDiscover(maze, strategy, goal, cost, cur, i, j + 1, n);
    }
  }

  /** Concatenation is associative. */
  lemma AppendAssoc<T>(a: seq<T>, b: seq<T>, c: seq<T>)
    ensures a + b + c == a + (b + c)
  {
  }

  /** One direction of the scan followed by the rest appends the scan's entries in direction order. */
  lemma ScanStep(maze: Maze, strategy: Strategy, goal: Cell, cost: map<Cell, nat>, cur: Cell, i: nat,
                 q0: seq<Entry>, q1: seq<Entry>, q: seq<Entry>)
    requires cur in cost && i < |Directions|
    requires q1 == q0 + NewEntry(maze, strategy, goal, cost, cur, i)
    requires q == q1 + NewEntries(maze, strategy, goal, cost, cur, i + 1)
    ensures q == q0 + NewEntries(maze, strategy, goal, cost, cur, i)
  {
    var e := NewEntry(maze, strategy, goal, cost, cur, i);
    var rest := NewEntries(maze, strategy, goal, cost, cur, i + 1);
    assert NewEntries(maze, strategy, goal, cost, cur, i) == e + rest;
    AppendAssoc(q0, e, rest);
  }

  /**
   Trying direction `i` appends that direction's entry, if any, to the
   frontier and the push log, and records its cell at one more than `cur`.
   */
  lemma TryDirectionEffect(maze: Maze, strategy: Strategy, goal: Cell, t0: State, cur: Cell, i: nat)
    requires cur in t0.cost && i < |Directions|
    ensures var t1 := TryDirection(maze, strategy, goal, t0, cur, i);
      var e := NewEntry(maze, strategy, goal, t0.cost, cur, i);
      && t1.pushes == t0.pushes + e && t1.frontier == t0.frontier + e
      && t1.cost == if e == [] then t0.cost else t0.cost[Step(cur, i) := t0.cost[cur] + 1]
  {
    var next := Step(cur, i);
    if next !in t0.cost && IsOpen(maze, next) {
      assert NewEntry(maze, strategy, goal, t0.cost, cur, i) == [Entry(Priority(strategy, t0.cost[cur] + 1, next, goal), next)];
    } else {
      assert t0.pushes + [] == t0.pushes && t0.frontier + [] == t0.frontier;
    }
  }

  /**
   Direction `i` followed by the later directions appends the entries of
   the scan from direction `i` on, in direction order: recording the
   neighbour in direction `i` does not change what the later ones push.
   */
  lemma ScanCombine(maze: Maze, strategy: Strategy, goal: Cell, cost0: map<Cell, nat>, cost1: map<Cell, nat>, cur: Cell, i: nat,
                    q0: seq<Entry>, q1: seq<Entry>, q: seq<Entry>)
    requires cur in cost0 && i < |Directions|
    requires cost1 == if NewEntry(maze, strategy, goal, cost0, cur, i) == [] then cost0 else cost0[Step(cur, i) := cost0[cur] + 1]
    requires q1 == q0 + NewEntry(maze, strategy, goal, cost0, cur, i)
    requires cur in cost1 && q == q1 + NewEntries(maze, strategy, goal, cost1, cur, i + 1)
    ensures q == q0 + NewEntries(maze, strategy, goal, cost0, cur, i)
  {
    if NewEntry(maze, strategy, goal, cost0, cur, i) != [] {
      assert Adjacent(cur, Step(cur, i));
      NewEntriesAfterDiscover(maze, strategy, goal, cost0, cur, i, i + 1, cost0[cur] + 1);
    }
    ScanStep(maze, strategy, goal, cost0, cur, i, q0, q1, q);
  }

  /** Trying direction `i` and then the later directions appends the scan's entries from direction `i` on. */
  lemma TryDirectionThenRest(maze: Maze, strategy: Strategy, goal: Cell, t0: State, t1: State, t: State, cur: Cell, i: nat)
    requires cur in t0.cost && i < |Directions| && t1 == TryDirection(maze, strategy, goal, t0, cur, i)
    requires t.pushes == t1.pushes + NewEntries(maze, strategy, goal, t1.cost, cur, i + 1)
    requires t.frontier == t1.frontier + NewEntries(maze, strategy, goal, t1.cost, cur, i + 1)
    ensures t.pushes == t0.pushes + NewEntries(maze, strategy, goal, t0.cost, cur, i)
    ensures t.frontier == t0.frontier + NewEntries(maze, strategy, goal, t0.cost, cur, i)
  {
    TryDirectionEffect(maze, strategy, goal, t0, cur, i);
    ScanCombine(maze, strategy, goal, t0.cost, t1.cost, cur, i, t0.pushes, t1.pushes, t.pushes);
    ScanCombine(maze, strategy, goal, t0.cost, t1.cost, cur, i, t0.frontier, t1.frontier, t.frontier);
  }

  /** Direction `i` of the scan: the neighbour is discovered from `cur` when it is open and not yet recorded. */
  function TryDirection(maze: Maze, strategy: Strategy, goal: Cell, t: State, cur: Cell, i: nat): (t': State)
    requires cur in t.cost && i < |Directions|
    ensures cur in t'.cost
  {
    var next := Step(cur, i);
    if next !in t.cost && IsOpen(maze, next) then Discover(strategy, goal, t, cur, next) else t
  }

  /**
   The scan of `cur`'s neighbours from direction `i` on, as a function of
   the state before it: each open neighbour missing from the cost
   dictionary is discovered from `cur`, in direction order.
   */
  function Scan(maze: Maze, strategy: Strategy, goal: Cell, t: State, cur: Cell, i: nat): State
    requires cur in t.cost && i <= |Directions|
    decreases |Directions| - i
  {
    if i == |Directions| then t else Scan(maze, strategy, goal, TryDirection(maze, strategy, goal, t, cur, i), cur, i + 1)
  }

  /** One step of the scan, stated for callers whose context is too large to unfold `Scan` themselves. */
  lemma ScanUnfold(maze: Maze, strategy: Strategy, goal: Cell, t: State, cur: Cell, i: nat)
    requires cur in t.cost && i < |Directions|
    ensures Scan(maze, strategy, goal, t, cur, i) == Scan(maze, strategy, goal, TryDirection(maze, strategy, goal, t, cur, i), cur, i + 1)
  {
  }

  /**
   The scan from direction `i` on appends to the frontier and to the push
   log exactly the entries of the open, unrecorded neighbours, in the order
   up, right, down, left, and leaves the expanded cells alone.
   */
  lemma {:induction false} ScanAppends(maze: Maze, strategy: Strategy, goal: Cell, t0: State, cur: Cell, i: nat)
    requires cur in t0.cost && i <= |Directions|
    ensures var t := Scan(maze, strategy, goal, t0, cur, i);
      && t.pushes == t0.pushes + NewEntries(maze, strategy, goal, t0.cost, cur, i)
      && t.frontier == t0.frontier + NewEntries(maze, strategy, goal, t0.cost, cur, i)
      && t.expanded == t0.expanded
    decreases |Directions| - i
  {
    if i == |Directions| {
      assert t0.pushes + [] == t0.pushes && t0.frontier + [] == t0.frontier;
    } else {
      var t1 := TryDirection(maze, strategy, goal, t0, cur, i);
      ScanUnfold(maze, strategy, goal, t0, cur, i);
      ScanAppends(maze, strategy, goal, t1, cur, i + 1);
      TryDirectionThenRest(maze, strategy, goal, t0, t1, Scan(maze, strategy, goal, t1, cur, i + 1), cur, i);
    }
  }

  /**
   Direction `i` of the neighbour scan of `cur`: the neighbour is
   discovered from `cur` when it is open and not yet recorded. `s` is the
   state before the scan, `added` the entries pushed so far.
   */
  method TryStep(maze: Maze, start: Cell, goal: Cell, strategy: Strategy, s: State, t0: State, cur: Cell,
                 i: nat, ghost level: nat, ghost added0: seq<Entry>)
    returns (t: State, ghost added: seq<Entry>)
    requires Walled(maze) && IsOpen(maze, start)
    requires i < |Directions|
    requires Core(maze, start, goal, strategy, t0)
    requires strategy != AStar ==> Layered(strategy, t0, level) && cur in s.cost && s.cost[cur] == level
    requires Grown(maze, s, t0, cur, added0)
    requires ClosedBut(maze, strategy, t0, cur, i)
    ensures Core(maze, start, goal, strategy, t)
    ensures strategy != AStar ==> Layered(strategy, t, level)
    ensures Grown(maze, s, t, cur, added)
    ensures ClosedBut(maze, strategy, t, cur, i + 1)
    ensures cur in t0.cost
    ensures t == TryDirection(maze, strategy, goal, t0, cur, i)
  {
    assert IsOpen(maze, cur);
    StepInBounds(maze, cur, i);
    var next := Step(cur, i);
    t, added := t0, added0;
    if next !in t0.cost && maze[next.y][next.x] == 0 {
      DiscoverKeepsTree(maze, start, goal, strategy, t0, cur, next);
      DiscoverKeepsLog(maze, start, goal, strategy, t0, cur, next);
      DiscoverKeepsBookkeeping(maze, start, goal, strategy, t0, cur, next);
      if strategy != AStar {
        DiscoverKeepsLayers(strategy, goal, t0, level, cur, next);
      }
      DiscoverKeepsGrown(maze, strategy, goal, s, t0, cur, next, added0);
      DiscoverKeepsClosedBut(maze, strategy, goal, t0, cur, next, i);
      t := Discover(strategy, goal, t0, cur, next);
      added := added0 + [t.pushes[|t.pushes| - 1]];
    }
    StepsRecordedNext(maze, strategy, t.cost, cur, i);
  }

  /** The neighbour scan of `cur` from direction `i` on, in the order up, right, down, left. */
  method TryNeighbours(maze: Maze, start: Cell, goal: Cell, strategy: Strategy, s: State, t0: State, cur: Cell,
                       i: nat, ghost level: nat, ghost added0: seq<Entry>)
    returns (t: State, ghost added: seq<Entry>)
    requires Walled(maze) && IsOpen(maze, start)
    requires i <= |Directions|
    requires Core(maze, start, goal, strategy, t0)
    requires strategy != AStar ==> Layered(strategy, t0, level) && cur in s.cost && s.cost[cur] == level
    requires Grown(maze, s, t0, cur, added0)
    requires ClosedBut(maze, strategy, t0, cur, i)
    ensures Core(maze, start, goal, strategy, t)
    ensures strategy != AStar ==> Layered(strategy, t, level)
    ensures Grown(maze, s, t, cur, added)
    ensures ClosedBut(maze, strategy, t, cur, |Directions|)
    ensures cur in t0.cost && t == Scan(maze, strategy, goal, t0, cur, i)
    decreases |Directions| - i
  {
    if i == |Directions| {
      return t0, added0;
    }
    var t1;
    ghost var added1;
    t1, added1 := TryStep(maze, start, goal, strategy, s, t0, cur, i, level, added0);
    t, added := TryNeighbours(maze, start, goal, strategy, s, t1, cur, i + 1, level, added1);
    ScanUnfold(maze, strategy, goal, t0, cur, i);
  }

  /**
   One round of the search loop after the entry at position `k` was taken
   out and found not to be the goal: its cell `cur` is marked expanded, and
   each neighbour, in the order up, right, down, left, that is open and not
   yet recorded gets `cur` as predecessor and cost one more than `cur`, and
   is pushed with the strategy's priority.
   */
  method Expand(maze: Maze, start: Cell, goal: Cell, strategy: Strategy, s0: State, k: nat, ghost level0: nat)
    returns (t: State)
    requires Walled(maze) && IsOpen(maze, start)
    requires Core(maze, start, goal, strategy, s0) && Closed(maze, strategy, s0)
    requires k < |s0.frontier| && s0.frontier[k].cell != goal
    requires strategy != AStar ==> Layered(strategy, s0, level0)
    requires strategy == Bfs ==> k == 0
    requires strategy != Bfs ==> forall j :: 0 <= j < |s0.frontier| ==> EntryLeq(s0.frontier[k], s0.frontier[j])
    ensures var cur := s0.frontier[k].cell;
      && cur in s0.cost
      && Core(maze, start, goal, strategy, t) && Closed(maze, strategy, t)
      && (strategy != AStar ==> Layered(strategy, t, s0.cost[cur]))
      && t.expanded == s0.expanded + [cur]
      && (forall c :: c in s0.cameFrom ==> c in t.cameFrom && t.cameFrom[c] == s0.cameFrom[c])
      && (forall c :: c in s0.cost ==> c in t.cost && t.cost[c] == s0.cost[c])
      && (forall c :: c in t.cost && c !in s0.cost ==>
            && Adjacent(cur, c) && IsOpen(maze, c)
            && c in t.cameFrom && t.cameFrom[c] == Some(cur) && t.cost[c] == s0.cost[cur] + 1)
      && |t.pushes| >= |s0.pushes| && t.pushes[..|s0.pushes|] == s0.pushes
      && t.frontier == RemoveAt(s0.frontier, k) + t.pushes[|s0.pushes|..]
      && t.pushes == s0.pushes + NewEntries(maze, strategy, goal, s0.cost, cur, 0)
      && (t.cost.Keys == s0.cost.Keys ==> |t.frontier| < |s0.frontier|)
  {
    var cur := s0.frontier[k].cell;
    PopKeepsCore(maze, start, goal, strategy, s0, k);
    ghost var level := level0;
    if strategy != AStar {
      PopKeepsLayers(maze, start, goal, strategy, s0, level0, k);
      level := s0.cost[cur];
    }
    var s := s0.(frontier := RemoveAt(s0.frontier, k), expanded := s0.expanded + [cur]);
    assert s.pushes + [] == s.pushes && s.frontier + [] == s.frontier;
    ghost var added;
    t, added := TryNeighbours(maze, start, goal, strategy, s, s, cur, 0, level, []);
    ScanAppends(maze, strategy, goal, s, cur, 0);
    assert t.pushes[..|s.pushes|] == s.pushes && t.pushes[|s.pushes|..] == added;
  }

  /**
   In a search that pops in cost order, once every recorded cell cheaper
   than `d` has been expanded, a walk from start reaches its `j`-th cell
   (for `j <= d`) at a recorded cost of at most `j`.
   */
  lemma {:induction false} LayeredCostBound(maze: Maze, strategy: Strategy, cost: map<Cell, nat>, expanded: seq<Cell>,
                                            d: nat, w: seq<Cell>, j: nat)
    requires strategy != AStar
    requires IsWalk(maze, w) && w[0] in cost && cost[w[0]] == 0
    requires forall c :: c in cost && cost[c] < d ==> c in expanded
    requires forall c :: c in expanded ==> StepsRecorded(maze, strategy, cost, c, |Directions|)
    requires j < |w| && j <= d
    ensures w[j] in cost && cost[w[j]] <= j
  {
    if j > 0 {
      LayeredCostBound(maze, strategy, cost, expanded, d, w, j - 1);
      var a, b := w[j - 1], w[j];
      assert Adjacent(a, b);
      AdjacentIffStep(a, b);
      var i :| 0 <= i < |Directions| && Step(a, i) == b;
      assert a in expanded;
      assert StepsRecorded(maze, strategy, cost, a, |Directions|);
    }
  }

  /** The goal's recorded cost is at most the number of steps of any walk from start to it. */
  lemma GoalCostIsShortest(maze: Maze, start: Cell, goal: Cell, strategy: Strategy, cost: map<Cell, nat>, expanded: seq<Cell>)
    requires strategy != AStar
    requires start in cost && cost[start] == 0 && goal in cost
    requires forall c :: c in cost && cost[c] < cost[goal] ==> c in expanded
    requires forall c :: c in expanded ==> StepsRecorded(maze, strategy, cost, c, |Directions|)
    ensures forall w :: IsWalkFrom(maze, w, start, goal) ==> cost[goal] < |w|
  {
    forall w | IsWalkFrom(maze, w, start, goal)
      ensures cost[goal] < |w|
    {
      var j := if |w| - 1 < cost[goal] then |w| - 1 else cost[goal];
      LayeredCostBound(maze, strategy, cost, expanded, cost[goal], w, j);
    }
  }

  /**
   When a search that pops in cost order takes the goal out of the frontier,
   every cheaper recorded cell has been expanded, so the goal's cost is
   that of a shortest walk.
   */
  lemma GoalPopped(maze: Maze, start: Cell, goal: Cell, strategy: Strategy, s: State, level: nat, k: nat)
    requires strategy != AStar
    requires Core(maze, start, goal, strategy, s) && Closed(maze, strategy, s) && Layered(strategy, s, level)
    requires k < |s.frontier| && s.frontier[k].cell == goal
    requires strategy == Bfs ==> k == 0
    requires strategy != Bfs ==> forall j :: 0 <= j < |s.frontier| ==> EntryLeq(s.frontier[k], s.frontier[j])
    ensures goal in s.cost
    ensures forall w :: IsWalkFrom(maze, w, start, goal) ==> s.cost[goal] < |w|
  {
    PopKeepsLayers(maze, start, goal, strategy, s, level, k);
    forall c | c in s.cost && s.cost[c] < s.cost[goal]
      ensures c in s.expanded
    {
      if c !in s.expanded {
        assert c in Cells(s.frontier);
        var e :| e in s.frontier && e.cell == c;
        PriorityIsCost(maze, start, goal, strategy, s, e);
      }
    }
    GoalCostIsShortest(maze, start, goal, strategy, s.cost, s.expanded);
  }

  /**
   When the frontier runs empty every recorded cell has been expanded: the
   recorded cells are closed under steps to open neighbours, and the goal
   is not among them.
   */
  lemma Exhausted(maze: Maze, start: Cell, goal: Cell, strategy: Strategy, s: State)
    requires Core(maze, start, goal, strategy, s) && Closed(maze, strategy, s)
    requires |s.frontier| == 0
    ensures goal !in s.cameFrom
    ensures ClosedUnderSteps(maze, s.cameFrom.Keys)
  {
    assert Cells(s.frontier) == {};
    assert forall c :: c in s.cameFrom ==> c in s.expanded;
    forall c, i | c in s.cameFrom.Keys && 0 <= i < |Directions| && IsOpen(maze, Step(c, i))
      ensures Step(c, i) in s.cameFrom.Keys
    {
      assert StepsRecorded(maze, strategy, s.cost, c, |Directions|);
    }
  }

  /** What the search loop keeps between rounds. */
  ghost predicate Invariant(maze: Maze, start: Cell, goal: Cell, strategy: Strategy, s: State, level: nat)
  {
    && Core(maze, start, goal, strategy, s) && Closed(maze, strategy, s)
    && (strategy != AStar ==> Layered(strategy, s, level))
    && s.cost.Keys <= AllCells(maze)
  }

  /**
   One round of the search loop: take the next entry out of the frontier;
   if its cell is the goal, stop with the goal recorded (at the cost of a
   shortest walk, for the searches that pop in cost order) and never
   expanded; otherwise expand it, which keeps the loop's invariant and
   either records a new cell of the grid or shrinks the frontier.
   */
  method Round(maze: Maze, start: Cell, goal: Cell, strategy: Strategy, s: State, ghost level: nat)
    returns (t: State, found: bool, ghost k: nat, ghost level': nat)
    requires Walled(maze) && IsOpen(maze, start)
    requires |s.frontier| > 0 && Invariant(maze, start, goal, strategy, s, level)
    ensures k < |s.frontier|
    ensures strategy == Bfs ==> k == 0
    ensures strategy != Bfs ==> forall j :: 0 <= j < |s.frontier| ==> EntryLeq(s.frontier[k], s.frontier[j])
    ensures found <==> s.frontier[k].cell == goal
    ensures found ==> t == s.(frontier := RemoveAt(s.frontier, k))
    ensures !found ==>
      && t.expanded == s.expanded + [s.frontier[k].cell]
      && |t.pushes| >= |s.pushes|
      && t.frontier == RemoveAt(s.frontier, k) + t.pushes[|s.pushes|..]
    ensures !found ==> var cur := s.frontier[k].cell;
      && cur in s.cost
      && (forall c :: c in s.cameFrom ==> c in t.cameFrom && t.cameFrom[c] == s.cameFrom[c])
      && (forall c :: c in s.cost ==> c in t.cost && t.cost[c] == s.cost[c])
      && (forall c :: c in t.cost && c !in s.cost ==>
            && Adjacent(cur, c) && IsOpen(maze, c)
            && c in t.cameFrom && t.cameFrom[c] == Some(cur) && t.cost[c] == s.cost[cur] + 1)
      && t.pushes == s.pushes + NewEntries(maze, strategy, goal, s.cost, cur, 0)
    ensures found ==>
      && Tree(maze, start, t.cameFrom, t.cost) && PushLog(start, goal, strategy, t.cost, t.pushes)
      && goal !in t.expanded && goal in t.cameFrom
      && (strategy != AStar ==> forall w :: IsWalkFrom(maze, w, start, goal) ==> t.cost[goal] < |w|)
    ensures !found ==>
      && Invariant(maze, start, goal, strategy, t, level')
      && s.cost.Keys <= t.cost.Keys
      && (s.cost.Keys == t.cost.Keys ==> |t.frontier| < |s.frontier|)
  {
    var i := PopIndex(strategy, s.frontier);
    k := i;
    var cur := s.frontier[i].cell;
    if cur == goal {
      assert Tagged(start, goal, strategy, s.cost, s.frontier[i]);
      if strategy != AStar {
        GoalPopped(maze, start, goal, strategy, s, level, i);
      }
      t := s.(frontier := RemoveAt(s.frontier, i));
      found := true;
      level' := level;
      return;
    }
    t := Expand(maze, start, goal, strategy, s, i, level);
    found := false;
    level' := if strategy != AStar then s.cost[cur] else level;
    TreeOnGrid(maze, start, t.cameFrom, t.cost);
  }

  /** The state before the first round: only start recorded, pushed with priority 0. */
  function Initial(start: Cell): State
  {
    State(map[start := None], map[start := 0], [Entry(0, start)], [Entry(0, start)], [])
  }

  /**
   The set-up before the loop: start is pushed with priority 0 and recorded
   with no predecessor and cost 0. The loop's invariant holds of the result.
   */
  method Begin(maze: Maze, start: Cell, goal: Cell, strategy: Strategy) returns (s: State)
    requires IsOpen(maze, start)
    ensures s.cameFrom == map[start := None] && s.cost == map[start := 0]
    ensures s.frontier == [Entry(0, start)] && s.expanded == []
    ensures Invariant(maze, start, goal, strategy, s, 0)
  {
    s := Initial(start);
    assert Cells([Entry(0, start)]) == {start};
  }

  /**
   The search loop from state `s0` on, one round per call, until the goal
   is popped or the frontier runs empty. It ends because every round that
   does not stop either records a new cell of the finite grid or shrinks
   the frontier. Its result is described at `Run`.
   */
  method RunFrom(maze: Maze, start: Cell, goal: Cell, strategy: Strategy, s0: State, ghost level: nat)
    returns (s: State, found: bool)
    requires Walled(maze) && IsOpen(maze, start)
    requires Invariant(maze, start, goal, strategy, s0, level)
    ensures Tree(maze, start, s.cameFrom, s.cost)
    ensures PushLog(start, goal, strategy, s.cost, s.pushes)
    ensures goal !in s.expanded
    ensures found <==> goal in s.cameFrom
    ensures !found ==> ClosedUnderSteps(maze, s.cameFrom.Keys)
    ensures found && strategy != AStar ==> forall w :: IsWalkFrom(maze, w, start, goal) ==> s.cost[goal] < |w|
    decreases |AllCells(maze) - s0.cost.Keys|, |s0.frontier|
  {
    if |s0.frontier| == 0 {
      Exhausted(maze, start, goal, strategy, s0);
      return s0, false;
    }
    var t, f, k, level' := Round(maze, start, goal, strategy, s0, level);
    if f {
      return t, true;
    }
    if t.cost.Keys != s0.cost.Keys {
      RemainderShrinks(AllCells(maze), s0.cost.Keys, t.cost.Keys);
    }
    s, found := RunFrom(maze, start, goal, strategy, t, level');
  }

  /**
   One search. On return the predecessor links form a tree rooted at start
   made of unit steps between open cells, with costs rising by one along
   each link; each recorded cell was pushed exactly once; the goal was
   never expanded. The goal is found exactly when it was recorded; when it
   is not found, the recorded cells are closed under steps to open
   neighbours; when it is found by a search that pops in cost order, its
   cost is the length of a shortest walk.
   */
  method Run(maze: Maze, start: Cell, goal: Cell, strategy: Strategy) returns (s: State, found: bool)
    requires Walled(maze) && IsOpen(maze, start)
    ensures Tree(maze, start, s.cameFrom, s.cost)
    ensures PushLog(start, goal, strategy, s.cost, s.pushes)
    ensures goal !in s.expanded
    ensures found <==> goal in s.cameFrom
    ensures !found ==> ClosedUnderSteps(maze, s.cameFrom.Keys)
    ensures found && strategy != AStar ==> forall w :: IsWalkFrom(maze, w, start, goal) ==> s.cost[goal] < |w|
  {
    var s0 := Begin(maze, start, goal, strategy);
    s, found := RunFrom(maze, start, goal, strategy, s0, 0);
  }
}

=== FILE: solver.dfy ===
/**
 The three solvers: run the search with one strategy, then reconstruct the
 route to the goal from the predecessor links. Besides the route, each
 returns whether the goal was found, so that an unreachable goal (whose
 route degenerates to `[goal]`) is told apart from a reachable one.
 */
module Solver {
  import opened Options
  import opened Grid
  import opened Frontier
  import opened Reconstruction
  import opened Search

  /** A chain of predecessor links from a root of the search tree is a walk from start. */
  lemma LinkedPathIsWalk(maze: Maze, start: Cell, cameFrom: map<Cell, Option<Cell>>, cost: map<Cell, nat>,
                         path: seq<Cell>)
    requires IsOpen(maze, start) && Tree(maze, start, cameFrom, cost)
    requires |path| > 0 && path[0] in cameFrom && cameFrom[path[0]] == None
    requires forall i :: 0 < i < |path| ==> path[i] in cameFrom && cameFrom[path[i]] == Some(path[i - 1])
    ensures IsWalk(maze, path) && path[0] == start
  {
    forall i | 0 <= i < |path|
      ensures IsOpen(maze, path[i])
    {
      if i > 0 {
        assert cameFrom[path[i]] == Some(path[i - 1]);
        assert path[i] != start;
      }
    }
    forall i | 0 <= i < |path| - 1
      ensures Adjacent(path[i], path[i + 1])
    {
      assert cameFrom[path[i + 1]] == Some(path[i]);
    }
  }

  /** Along a chain of predecessor links from the root, the `i`-th cell has cost `i`. */
  lemma {:induction false} LinkedPathCost(maze: Maze, start: Cell, cameFrom: map<Cell, Option<Cell>>,
                                          cost: map<Cell, nat>, path: seq<Cell>, i: nat)
    requires Tree(maze, start, cameFrom, cost)
    requires |path| > 0 && path[0] in cameFrom && cameFrom[path[0]] == None
    requires forall i :: 0 < i < |path| ==> path[i] in cameFrom && cameFrom[path[i]] == Some(path[i - 1])
    requires i < |path|
    ensures path[i] in cost && cost[path[i]] == i
  {
    if i > 0 {
      LinkedPathCost(maze, start, cameFrom, cost, path, i - 1);
      assert cameFrom[path[i]] == Some(path[i - 1]);
    }
  }

  /** Costs rise along a chain of predecessor links, so it never repeats a cell. */
  lemma LinkedPathIsSimple(maze: Maze, start: Cell, cameFrom: map<Cell, Option<Cell>>, cost: map<Cell, nat>,
                           path: seq<Cell>)
    requires Tree(maze, start, cameFrom, cost)
    requires |path| > 0 && path[0] in cameFrom && cameFrom[path[0]] == None
    requires forall i :: 0 < i < |path| ==> path[i] in cameFrom && cameFrom[path[i]] == Some(path[i - 1])
    ensures Simple(path)
  {
    forall i, j | 0 <= i < j < |path|
      ensures path[i] != path[j]
    {
      LinkedPathCost(maze, start, cameFrom, cost, path, i);
      LinkedPathCost(maze, start, cameFrom, cost, path, j);
    }
  }

  /**
   The search followed by path reconstruction. The route ends at the goal.
   If the goal is found, the route is a walk from start to the goal (for
   breadth-first and uniform-cost search a shortest one); otherwise no walk
   reaches the goal and the route is `[goal]`.
   */
  method Solve(maze: Maze, start: Cell, goal: Cell, strategy: Strategy) returns (path: seq<Cell>, found: bool)
    requires Walled(maze) && IsOpen(maze, start)
    ensures |path| > 0 && path[|path| - 1] == goal
    ensures found <==> Reachable(maze, start, goal)
    ensures found ==> IsWalkFrom(maze, path, start, goal) && Simple(path)
    ensures found ==> Distance(start, goal) < |path|
    ensures !found ==> path == [goal]
    ensures start == goal ==> found && path == [start]
    ensures found && strategy != AStar ==> forall w :: IsWalkFrom(maze, w, start, goal) ==> |path| <= |w|
  {
    var s;
    s, found := Run(maze, start, goal, strategy);
    path := Reconstruct(s.cameFrom, goal, s.cost);
    if found {
      LinkedPathIsWalk(maze, start, s.cameFrom, s.cost, path);
      LinkedPathIsSimple(maze, start, s.cameFrom, s.cost, path);
      assert IsWalkFrom(maze, path, start, goal);
      WalkNoShorterThanDistance(maze, path);
    } else {
      Unreachable(maze, s.cameFrom.Keys, start, goal);
    }
  }

  /** Breadth-first search: a shortest route when the goal is reachable, `[goal]` otherwise. */
  method SolveBfs(maze: Maze, start: Cell, goal: Cell) returns (path: seq<Cell>, found: bool)
    requires Walled(maze) && IsOpen(maze, start)
    ensures |path| > 0 && path[|path| - 1] == goal
    ensures found <==> Reachable(maze, start, goal)
    ensures found ==> IsWalkFrom(maze, path, start, goal) && Simple(path)
    ensures found ==> forall w :: IsWalkFrom(maze, w, start, goal) ==> |path| <= |w|
    ensures !found ==> path == [goal]
  {
    path, found := Solve(maze, start, goal, Bfs);
  }

  /** Uniform-cost search: a shortest route when the goal is reachable, `[goal]` otherwise. */
  method SolveDijkstra(maze: Maze, start: Cell, goal: Cell) returns (path: seq<Cell>, found: bool)
    requires Walled(maze) && IsOpen(maze, start)
    ensures |path| > 0 && path[|path| - 1] == goal
    ensures found <==> Reachable(maze, start, goal)
    ensures found ==> IsWalkFrom(maze, path, start, goal) && Simple(path)
    ensures found ==> forall w :: IsWalkFrom(maze, w, start, goal) ==> |path| <= |w|
    ensures !found ==> path == [goal]
  {
    path, found := Solve(maze, start, goal, Dijkstra);
  }

  /**
   A* search: a route from start to the goal, no shorter than their
   Manhattan distance, when the goal is reachable; `[goal]` otherwise.
   Cells are closed when first discovered, so the route need not be a
   shortest one.
   */
  method SolveAStar(maze: Maze, start: Cell, goal: Cell) returns (path: seq<Cell>, found: bool)
    requires Walled(maze) && IsOpen(maze, start)
    ensures |path| > 0 && path[|path| - 1] == goal
    ensures found <==> Reachable(maze, start, goal)
    ensures found ==> IsWalkFrom(maze, path, start, goal) && Simple(path)
    ensures found ==> ManhattanDistance(start.x, start.y, goal.x, goal.y) < |path|
    ensures !found ==> path == [goal]
  {
    path, found := Solve(maze, start, goal, AStar);
  }

  /**
   All three solvers on the same maze: breadth-first and uniform-cost
   search return routes of equal length, and A*'s is never shorter.
   */
  method CompareStrategies(maze: Maze, start: Cell, goal: Cell) returns (bfs: seq<Cell>, dijkstra: seq<Cell>, astar: seq<Cell>)
    requires Walled(maze) && IsOpen(maze, start)
    ensures |bfs| == |dijkstra| <= |astar|
    ensures |bfs| > 0 && |dijkstra| > 0 && |astar| > 0
    ensures bfs[|bfs| - 1] == dijkstra[|dijkstra| - 1] == astar[|astar| - 1] == goal
  {
    var f1, f2, f3;
    bfs, f1 := SolveBfs(maze, start, goal);
    dijkstra, f2 := SolveDijkstra(maze, start, goal);
    astar, f3 := SolveAStar(maze, start, goal);
  }
}
